=== FILE: README.md ===
# PostgreSQL infrastructure generator — a Dafny model

The service takes one PostgreSQL deployment request through `POST /generate`. The request names:

- a PostgreSQL version;
- an EC2 instance type;
- a number of read replicas;
- `max_connections`;
- `shared_buffers`.

The service validates the request and writes two files, named with a timestamp taken when each is created:

- a Terraform descriptor, `main_<timestamp>.tf`: one AWS provider, one primary `aws_instance`, one `aws_instance` per replica, and an output with the primary's public IP;
- an Ansible playbook, `playbook_<timestamp>.yml`: install the package, install `pg_hba.conf`, and a `lineinfile` task on `postgresql.conf` meant to set `max_connections` and `shared_buffers`, whose two items are not substituted (see below).

The model has six modules, one per file:

| file | module | what it holds |
|---|---|---|
| `text.dfy` | `Text` | ASCII digits; Python's `str(n)` and its inverse; `str.join`; substring occurrence; pattern counting |
| `validation.dfy` | `Validation` | the request record (`Setup`); the three validators; the `conint(ge=1)` bound; building a valid request (`Validate`) |
| `timestamps.dfy` | `Timestamps` | clock readings; `strftime("%Y%m%d%H%M%S")`; `generate_timestamped_filename` |
| `terraform.dfy` | `Terraform` | the instance-block template; `generate_replica_resources` as a loop (`GenerateReplicaResources`) proved against the function it computes (`ReplicaResources`); the Terraform text |
| `playbook.dfy` | `Playbook` | the playbook template as its fixed fragments (`Template`); the text with the version filled in |
| `generate.dfy` | `Generate` | `generate_all`: validation, the two file names, the two writes into the working directory, the JSON answer |

The two regular expressions are modelled twice:

- as the declarative shape of a matching string (`SharedBuffersPattern`, `PostgresVersionPattern`);
- as the left-to-right scan that `re.match` performs (`ScanSharedBuffers`, `ScanPostgresVersion`).

They are proved equal, and the matches the validators call (`MatchSharedBuffers`, `MatchPostgresVersion`) are stated as the patterns. The model keeps Python's rule that `$` also matches before a single newline that ends the string, so `"256MB\n"` is accepted.

Two behaviours of the code worth knowing:

- **Settings not substituted.** In the playbook template, the two `with_items` entries are written with doubled braces. An f-string turns doubled braces into literal braces, so the file receives the text `str(config.max_connections)` and `config.shared_buffers`, never the configured values. `Playbook.PlaybookSettingsNotSubstituted` states this.
- **All errors reported.** The request is a pydantic model: pydantic runs every field's validator and reports all failures together. `Validation.Validate` models that: one error per failing field, in declaration order, each with its validator's message.

The version validator accepts `major.minor` only, yet its error message gives `14.10.20` as an example. The model states both facts: the example is refused (`PostgresVersionMessageExampleRefused`).

## Model

| member | source | states |
|---|---|---|
| Validation.CheckInstanceType | app.py:25-31 | the type is accepted exactly when it is in the nine-entry allow-list; an accepted value is returned unchanged; a refusal carries the message naming the value |
| Validation.InstanceTypeRejection | app.py:11-31 | a refused type appears in the error message, and so does every allowed type |
| Validation.ScanSharedBuffersCorrect | app.py:33-37 | the scan accepts a string exactly when it is one or more digits followed by `MB` or `GB`, with at most one trailing newline |
| Validation.CheckSharedBuffers | app.py:33-37 | accepted exactly when the value is digits followed by `MB` or `GB`; returned unchanged; otherwise the fixed message |
| Validation.SharedBuffersExamples | app.py:33-37 | `256MB`, `1GB` and `256MB` with a trailing newline are accepted; `1.5GB`, `500`, `10TB` and `MB` are refused |
| Validation.MatchSharedBuffers | app.py:35 | the match succeeds exactly when the value is digits followed by `MB` or `GB`, with at most one trailing newline |
| Validation.ScanPostgresVersionSound | app.py:39-43 | whatever the scan accepts is digits, one dot, digits |
| Validation.ScanPostgresVersionComplete | app.py:39-43 | every string of the form digits, dot, digits (with at most one trailing newline) is accepted by the scan |
| Validation.ScanPostgresVersionCorrect | app.py:39-43 | the scan and the `^\d+\.\d+$` shape agree on every string |
| Validation.MatchPostgresVersion | app.py:41 | the match succeeds exactly when the value is digits, one dot, digits, with at most one trailing newline |
| Validation.CheckPostgresVersion | app.py:39-43 | accepted exactly when the shape holds; returned unchanged; otherwise the fixed message |
| Validation.PostgresVersionExamples | app.py:39-43 | `14.10` is accepted; `14` and `14.` are refused |
| Validation.PostgresVersionMessageExample | app.py:42 | the version error message offers `14.10.20` as its example |
| Validation.PostgresVersionMessageExampleRefused | app.py:39-43 | the validator refuses `14.10.20`, the example its own message offers |
| Validation.FieldErrors | app.py:18-43 | one error per failing field, in the fields' declaration order; each is the error its field reports (the instance-type message naming the value, the fixed version or shared_buffers message, or the `ge=1` bound); none exactly when every constraint holds; `num_replicas` is never reported |
| Validation.Validate | app.py:18-43 | a request is accepted exactly when every constraint holds, and then it is unchanged; otherwise the errors name the failing fields in order, each with the message its validator raises |
| Timestamps.Timestamp | app.py:47 | the timestamp is all digits, more than ten of them, and exactly fourteen for every year from 1000 on |
| Timestamps.TimestampRoundTrip | app.py:45-48 | the timestamp reads back to the clock reading with its sub-second part dropped |
| Timestamps.TimestampSameSecond | app.py:45-48 | two readings give the same timestamp exactly when they fall in the same second |
| Timestamps.TimestampedFilename | app.py:45-48 | the name is the base name and `_`, then only digits, exactly as many as the timestamp has (14 from year 1000 on), then `.` and the extension; the digits parse back to the clock reading without its microseconds |
| Timestamps.FilenameCollision | app.py:45-48 | for one base name and extension, two file names are equal exactly when the readings fall in the same second |
| Terraform.ReplicaResources | app.py:50-63 | the replica text is exactly as long as the blocks of replicas 1..n together: per block, the fixed template text, the instance type once and the replica's number twice (no block when n <= 0) |
| Terraform.GenerateReplicaResources | app.py:50-63 | the loop returns the blocks of replicas 1..n concatenated in order; it returns the empty text when n <= 0 |
| Terraform.ReplicaResourcesStep | app.py:53-62 | one more loop iteration appends the block of the next replica |
| Terraform.ReplicaBlockAt | app.py:53-62 | replica k's block starts exactly where the text of replicas 1..k-1 ends, so the blocks come in increasing order |
| Terraform.ReplicaNamesDistinct | app.py:54 | replica names `replica_<i>` are equal exactly when the numbers are |
| Terraform.NonPositiveReplicasRenderNone | app.py:53 | a count of zero or less renders no replica, and the descriptor is the same as for zero |
| Terraform.ReplicaBlockLength | app.py:53-62 | a replica block holds the fixed template text, the instance type once, and its number twice |
| Terraform.ReplicaResourcesCount | app.py:50-63 | for any counted word of the allowed shape, n replica blocks hold n times what one block holds |
| Terraform.TerraformBlockCounts | app.py:72-90 | for an allowed type, the descriptor contains `resource` exactly n + 1 times and `replica_` exactly n times (n clamped at 0) |
| Terraform.TerraformText | app.py:72-90 | the descriptor opens with the provider block; the primary block follows it; the replica text starts after the primary block and a newline; the `primary_ip` output block closes it; the text is exactly as long as these pieces with one newline before the replicas and two after, so nothing else lies between them |
| Terraform.TerraformInstanceTypeAt | app.py:77-79 | the primary block holds the instance type verbatim, closed by a quote, at a fixed offset |
| Terraform.TerraformDeterminesTypeAndCount | app.py:72-90 | for allowed types and counts >= 0, two descriptors are equal exactly when the instance types and the replica counts are |
| Playbook.FillVersionRoundTrip | app.py:95-124 | whatever the fixed fragments, the version can be read back out of the filled template |
| Playbook.PlaybookText | app.py:95-124 | the version can be read back out of the playbook text |
| Playbook.PlaybookDependsOnlyOnVersion | app.py:95-124 | two playbooks are equal exactly when their versions are, whatever the other four fields |
| Playbook.PlaybookMentionsVersion | app.py:99-112 | the text contains `postgresql-<version>`, `/etc/postgresql/<version>/main/pg_hba.conf` and `/etc/postgresql/<version>/main/postgresql.conf` |
| Playbook.PlaybookSettingsNotSubstituted | app.py:113-117 | the text contains `str(config.max_connections)` and `config.shared_buffers` literally, and does not change with those two fields |
| Generate.FilenamesDiffer | app.py:69-94 | the Terraform file and the playbook never share a name, whatever the two readings |
| Generate.GenerateAll | app.py:65-130 | a request succeeds exactly when it is valid; a rejection carries the validation errors; a success answers with the fixed message and the two timestamped names |
| Generate.GenerateAllWrites | app.py:69-124 | after a success, the Terraform text and the playbook are stored under the two answered names, and every other file is unchanged |
| Generate.ResponsesCoincide | app.py:65-130 | two successful answers are equal exactly when both pairs of readings fall in the same second |
| Generate.SameSecondOverwrites | app.py:69-124 | a second request in the same seconds answers with the same names and replaces the first request's files |

## Left out

- The HTTP layer is not modelled: the FastAPI application, the route, the conversion of any exception into a 422 `HTTPException` (app.py:132-133), the custom exception handler (app.py:135-141) and the uvicorn entry point (app.py:143-145). A rejected request is an `Outcome` value, not an HTTP response.
- File I/O is modelled as updates to a map from names to contents. A failed write, and the partial result it leaves (Terraform file written, playbook not), are not modelled.
- `datetime.now()` is a parameter. The two file names come from two separate clock calls (app.py:70 and app.py:93), so `GenerateAll` takes two readings and nothing assumes they are equal.
- Pydantic itself is left out: type coercion of JSON values, missing or extra fields, and the exact wording of the `conint(ge=1)` error. `BelowMinimum(field, limit)` stands in for that error. The report listing every failing field follows pydantic's behaviour, which app.py does not show.
- `\d` is limited to ASCII digits. Python's `re` also matches other Unicode decimal digits for `\d` in a `str` pattern.
- `%Y` is modelled as the year's decimal digits without padding, as glibc prints it. This is four digits for every year from 1000 on.
- Concurrent requests are not modelled. The same-second overwrite is shown for two requests in sequence (`SameSecondOverwrites`).
- Terraform.TerraformBlockCounts: stated only for instance types in the allow-list, the only ones that reach rendering. A type containing `resource` or `replica_` would change the counts.
- Terraform.TerraformDeterminesTypeAndCount: stated for replica counts of zero or more. All non-positive counts render alike (`NonPositiveReplicasRenderNone`), so the text cannot tell them apart.

=== FILE: generate.dfy ===
/**
 * `generate_all`, the body of `POST /generate`: validate the submitted setup,
 * write the Terraform descriptor to `main_<timestamp>.tf` and the playbook to
 * `playbook_<timestamp>.yml`, and answer with the two file names.
 *
 * The working directory is a map from file names to contents; opening a file
 * with mode `'w'` replaces whatever that name held. The two names are built
 * from two separate clock readings, one per file, so each is a parameter.
 */
module Generate {
  import opened Text
  import opened Validation
  import opened Timestamps
  import opened Terraform
  import opened Playbook

  /** The JSON body of a successful answer. */
  datatype Response = Response(message: string, terraformFile: string, ansibleFile: string)

  const SuccessMessage: string := "Terraform and Ansible files generated successfully."

  /** The working directory: file name to file content. */
  type Directory = map<string, string>

  datatype Outcome =
    | Generated(response: Response, directory: Directory)
    | Rejected(errors: seq<FieldError>)   // the request body failed validation

  function TerraformFilename(now: DateTime): string
    requires ValidDateTime(now)
  {
    TimestampedFilename("main", "tf", now)
  }

  function PlaybookFilename(now: DateTime): string
    requires ValidDateTime(now)
  {
    TimestampedFilename("playbook", "yml", now)
  }

  /** The Terraform file and the playbook never share a name, whatever the two readings. */
  lemma FilenamesDiffer(terraformClock: DateTime, playbookClock: DateTime)
    requires ValidDateTime(terraformClock) && ValidDateTime(playbookClock)
    ensures TerraformFilename(terraformClock) != PlaybookFilename(playbookClock)
  {
    assert TerraformFilename(terraformClock)[0] == ("main" + "_")[0];
    assert PlaybookFilename(playbookClock)[0] == ("playbook" + "_")[0];
  }

  /** `open(name, 'w').write(content)`: the file holds `content`, whatever it held before. */
  function WriteFile(directory: Directory, name: string, content: string): Directory {
    directory[name := content]
  }

  /** Two writes to different names keep both contents and touch nothing else. */
  lemma WriteTwoFiles(directory: Directory, name1: string, content1: string, name2: string, content2: string)
    requires name1 != name2
    ensures var d := WriteFile(WriteFile(directory, name1, content1), name2, content2);
            && name1 in d && d[name1] == content1
            && name2 in d && d[name2] == content2
            && d.Keys == directory.Keys + {name1, name2}
            && forall name :: name in directory && name != name1 && name != name2 ==> d[name] == directory[name]
  {
  }

  /**
   * `generate_all(config)` on a working directory, with the clock reading
   * taken for each file name.
   */
  function GenerateAll(s: Setup, directory: Directory, terraformClock: DateTime, playbookClock: DateTime): (r: Outcome)
    requires ValidDateTime(terraformClock) && ValidDateTime(playbookClock)
    ensures r.Generated? <==> IsValid(s)
    ensures r.Rejected? ==> r.errors != [] && r.errors == FieldErrors(s)
    ensures r.Generated? ==>
      && r.response.message == SuccessMessage
      && r.response.terraformFile == TerraformFilename(terraformClock)
      && r.response.ansibleFile == PlaybookFilename(playbookClock)
  {
    match Validate(s)
    case Err(errors) => Rejected(errors)
    case Ok(config) =>
      var terraformName := TerraformFilename(terraformClock);
      var ansibleName := PlaybookFilename(playbookClock);
      var written := WriteFile(WriteFile(directory, terraformName, TerraformText(config)), ansibleName, PlaybookText(config));
      Generated(Response(SuccessMessage, terraformName, ansibleName), written)
  }

  /**
   * A successful call leaves the Terraform text and the playbook under the
   * two names it answers with, and every other file as it was.
   */
  lemma GenerateAllWrites(s: Setup, directory: Directory, terraformClock: DateTime, playbookClock: DateTime)
    requires ValidDateTime(terraformClock) && ValidDateTime(playbookClock)
    requires IsValid(s)
    ensures var r := GenerateAll(s, directory, terraformClock, playbookClock);
            && r.response.terraformFile in r.directory
            && r.directory[r.response.terraformFile] == TerraformText(s)
            && r.response.ansibleFile in r.directory
            && r.directory[r.response.ansibleFile] == PlaybookText(s)
            && r.directory.Keys == directory.Keys + {r.response.terraformFile, r.response.ansibleFile}
            && forall name :: (name in directory && name != r.response.terraformFile
                               && name != r.response.ansibleFile) ==> r.directory[name] == directory[name]
  {
    FilenamesDiffer(terraformClock, playbookClock);
    WriteTwoFiles(directory, TerraformFilename(terraformClock), TerraformText(s),
                  PlaybookFilename(playbookClock), PlaybookText(s));
  }

  /** A successful call answers with the fixed message and the two names built from its readings. */
  lemma GeneratedResponse(s: Setup, directory: Directory, terraformClock: DateTime, playbookClock: DateTime)
    requires ValidDateTime(terraformClock) && ValidDateTime(playbookClock)
    requires IsValid(s)
    ensures GenerateAll(s, directory, terraformClock, playbookClock).response
            == Response(SuccessMessage, TerraformFilename(terraformClock), PlaybookFilename(playbookClock))
  {
  }

  /**
   * Two calls answer with the same file names exactly when their readings fall
   * in the same second, clock by clock.
   */
  lemma ResponsesCoincide(s1: Setup, s2: Setup, directory: Directory,
                          t1: DateTime, p1: DateTime, t2: DateTime, p2: DateTime)
    requires ValidDateTime(t1) && ValidDateTime(p1) && ValidDateTime(t2) && ValidDateTime(p2)
    requires IsValid(s1) && IsValid(s2)
    ensures GenerateAll(s1, directory, t1, p1).response == GenerateAll(s2, directory, t2, p2).response
            <==> ToSecond(t1) == ToSecond(t2) && ToSecond(p1) == ToSecond(p2)
  {
    GeneratedResponse(s1, directory, t1, p1);
    GeneratedResponse(s2, directory, t2, p2);
    FilenameCollision("main", "tf", t1, t2);
    FilenameCollision("playbook", "yml", p1, p2);
  }

  /**
   * Two calls whose readings fall in the same second write to the same two
   * names: the second call's files replace the first call's, which are lost.
   */
  lemma SameSecondOverwrites(s1: Setup, s2: Setup, directory: Directory,
                             t1: DateTime, p1: DateTime, t2: DateTime, p2: DateTime)
    requires ValidDateTime(t1) && ValidDateTime(p1) && ValidDateTime(t2) && ValidDateTime(p2)
    requires IsValid(s1) && IsValid(s2)
    requires ToSecond(t1) == ToSecond(t2) && ToSecond(p1) == ToSecond(p2)
    ensures var first := GenerateAll(s1, directory, t1, p1);
            var second := GenerateAll(s2, first.directory, t2, p2);
            && second.response == first.response
            && second.directory.Keys == first.directory.Keys
            && second.directory[first.response.terraformFile] == TerraformText(s2)
            && second.directory[first.response.ansibleFile] == PlaybookText(s2)
  {
    var first := GenerateAll(s1, directory, t1, p1);
    ResponsesCoincide(s1, s2, first.directory, t1, p1, t2, p2);
    ResponsesCoincide(s1, s1, directory, t1, p1, t1, p1);
    assert first.response == GenerateAll(s1, first.directory, t1, p1).response;
    GenerateAllWrites(s1, directory, t1, p1);
    GenerateAllWrites(s2, first.directory, t2, p2);
  }
}

=== FILE: playbook.dfy ===
/**
 * The Ansible playbook written by `generate_all`: install the PostgreSQL
 * package, install `pg_hba.conf`, and a `lineinfile` task on
 * `postgresql.conf` meant to set `max_connections` and `shared_buffers`,
 * whose two items are not substituted.
 *
 * The template is an f-string in which only `config.postgres_version` is a
 * replacement field; it is modelled as the fixed fragments between the
 * version's three places (`Template`) and the text they make once the
 * version is put in (`Fill`). The two list items under `with_items` are
 * written with doubled braces, which an f-string turns into single literal
 * braces, so the text `str(config.max_connections)` and
 * `config.shared_buffers` reaches the file as it stands and the configured
 * values never do.
 */
module Playbook {
  import opened Text
  import opened Validation

  /** The fixed text of the playbook, cut where the version goes and around the two settings items. */
  datatype Template = Template(
    installHead: string, package: string, installEnd: string,
    configureHead: string, configDir: string, hbaFile: string, configureEnd: string,
    settingsHead: string, confFile: string, settingsLines: string,
    maxOpen: string, maxExpr: string, sharedOpen: string, sharedExpr: string, itemClose: string,
    handlers: string)

  function MaxConnectionsItem(tp: Template): string {
    tp.maxOpen + tp.maxExpr + tp.itemClose
  }

  function SharedBuffersItem(tp: Template): string {
    tp.sharedOpen + tp.sharedExpr + tp.itemClose
  }

  function InstallSection(tp: Template, version: string): string {
    tp.installHead + tp.package + version + tp.installEnd
  }

  function ConfigureSection(tp: Template, version: string): string {
    tp.configureHead + tp.configDir + version + tp.hbaFile + tp.configureEnd
  }

  function SettingsSection(tp: Template, version: string): string {
    tp.settingsHead + tp.configDir + version + tp.confFile + tp.settingsLines
    + MaxConnectionsItem(tp) + SharedBuffersItem(tp)
  }

  /** The template with the version put in each of its three places. */
  function Fill(tp: Template, version: string): string {
    InstallSection(tp, version) + ConfigureSection(tp, version) + SettingsSection(tp, version) + tp.handlers
  }

  /** The characters of a filled template that are not the version. */
  function FixedLength(tp: Template): nat {
    |tp.installHead| + |tp.package| + |tp.installEnd|
    + |tp.configureHead| + |tp.configDir| + |tp.hbaFile| + |tp.configureEnd|
    + |tp.settingsHead| + |tp.configDir| + |tp.confFile| + |tp.settingsLines|
    + |MaxConnectionsItem(tp)| + |SharedBuffersItem(tp)| + |tp.handlers|
  }

  /** The version holds three places in the text. */
  lemma FillLength(tp: Template, version: string)
    ensures |Fill(tp, version)| == FixedLength(tp) + 3 * |version|
  {
  }

  /** Reads the version back out of a filled template: the text's length says how long it is. */
  function VersionIn(tp: Template, text: string): string {
    if |text| < FixedLength(tp) then ""
    else
      var n := (|text| - FixedLength(tp)) / 3;
      var k := |tp.installHead| + |tp.package|;
      if k + n <= |text| then text[k..k + n] else ""
  }

  /** An occurrence in the install section is one in the filled text, at the same place. */
  lemma OccursInInstall(tp: Template, version: string, w: string, i: int)
    requires OccursAt(InstallSection(tp, version), w, i)
    ensures OccursAt(Fill(tp, version), w, i)
  {
    OccursInFirst(InstallSection(tp, version), ConfigureSection(tp, version),
                  SettingsSection(tp, version), tp.handlers, w, i);
  }

  /** An occurrence in the configure section, moved past the install section. */
  lemma OccursInConfigure(tp: Template, version: string, w: string, i: int)
    requires OccursAt(ConfigureSection(tp, version), w, i)
    ensures OccursAt(Fill(tp, version), w, |InstallSection(tp, version)| + i)
  {
    OccursInSecond(InstallSection(tp, version), ConfigureSection(tp, version),
                   SettingsSection(tp, version), tp.handlers, w, i);
  }

  /** An occurrence in the settings section, moved past the two sections before it. */
  lemma OccursInSettings(tp: Template, version: string, w: string, i: int)
    requires OccursAt(SettingsSection(tp, version), w, i)
    ensures OccursAt(Fill(tp, version), w,
                     |InstallSection(tp, version)| + |ConfigureSection(tp, version)| + i)
  {
    OccursInThird(InstallSection(tp, version), ConfigureSection(tp, version),
                  SettingsSection(tp, version), tp.handlers, w, i);
  }

  /** Whatever the fixed text, the version can be read back out of the filled template. */
  lemma FillVersionRoundTrip(tp: Template, version: string)
    ensures VersionIn(tp, Fill(tp, version)) == version
  {
    FillLength(tp, version);
    var head := tp.installHead + tp.package;
    OccursSuffix(head, version);
    OccursExtend(head + version, version, |head|, tp.installEnd);
    OccursInInstall(tp, version, version, |head|);
  }

  /** The version follows the package prefix, and sits between the directory and each file name. */
  lemma FillMentionsVersion(tp: Template, version: string)
    ensures Contains(Fill(tp, version), tp.package + version)
    ensures Contains(Fill(tp, version), tp.configDir + version + tp.hbaFile)
    ensures Contains(Fill(tp, version), tp.configDir + version + tp.confFile)
  {
    var v := version;
    OccursPair(tp.installHead, tp.package, v);
    OccursExtend(tp.installHead + tp.package + v, tp.package + v, |tp.installHead|, tp.installEnd);
    OccursInInstall(tp, v, tp.package + v, |tp.installHead|);

    var hba := tp.configDir + v + tp.hbaFile;
    OccursTriple(tp.configureHead, tp.configDir, v, tp.hbaFile);
    OccursExtend(tp.configureHead + hba, hba, |tp.configureHead|, tp.configureEnd);
    OccursInConfigure(tp, v, hba, |tp.configureHead|);

    var conf := tp.configDir + v + tp.confFile;
    var x := tp.settingsHead + tp.configDir + v + tp.confFile;
    OccursTriple(tp.settingsHead, tp.configDir, v, tp.confFile);
    OccursExtend(x, conf, |tp.settingsHead|, tp.settingsLines);
    OccursExtend(x + tp.settingsLines, conf, |tp.settingsHead|, MaxConnectionsItem(tp));
    OccursExtend(x + tp.settingsLines + MaxConnectionsItem(tp), conf, |tp.settingsHead|, SharedBuffersItem(tp));
    OccursInSettings(tp, v, conf, |tp.settingsHead|);
  }

  /** An item's expression occurs within the item, after its opening. */
  lemma ExpressionInItem(open: string, expr: string, close: string)
    ensures OccursAt(open + expr + close, expr, |open|)
  {
    OccursSuffix(open, expr);
    OccursExtend(open + expr, expr, |open|, close);
  }

  /** The settings section before its two items. */
  function SettingsLead(tp: Template, version: string): string {
    tp.settingsHead + tp.configDir + version + tp.confFile + tp.settingsLines
  }

  /** The `max_connections` expression appears in the filled text, as it stands in the template. */
  lemma FillHoldsMaxConnections(tp: Template, version: string)
    ensures Contains(Fill(tp, version), tp.maxExpr)
  {
    var lead := SettingsLead(tp, version);
    var i := |lead| + |tp.maxOpen|;
    ExpressionInItem(tp.maxOpen, tp.maxExpr, tp.itemClose);
    OccursShift(lead, MaxConnectionsItem(tp), tp.maxExpr, |tp.maxOpen|);
    OccursExtend(lead + MaxConnectionsItem(tp), tp.maxExpr, i, SharedBuffersItem(tp));
    OccursInSettings(tp, version, tp.maxExpr, i);
  }

  /** The `shared_buffers` expression appears in the filled text, as it stands in the template. */
  lemma FillHoldsSharedBuffers(tp: Template, version: string)
    ensures Contains(Fill(tp, version), tp.sharedExpr)
  {
    var before := SettingsLead(tp, version) + MaxConnectionsItem(tp);
    ExpressionInItem(tp.sharedOpen, tp.sharedExpr, tp.itemClose);
    OccursShift(before, SharedBuffersItem(tp), tp.sharedExpr, |tp.sharedOpen|);
    OccursInSettings(tp, version, tp.sharedExpr, |before| + |tp.sharedOpen|);
  }

  const PackagePrefix: string := "postgresql-"
  const ConfigDir: string := "/etc/postgresql/"
  const HbaFile: string := "/main/pg_hba.conf"
  const ConfFile: string := "/main/postgresql.conf"
  const MaxConnectionsExpr: string := "str(config.max_connections)"
  const SharedBuffersExpr: string := "config.shared_buffers"

  /** The playbook template of `generate_all`, braces already undoubled. */
  const PlaybookTemplate: Template := Template(
    "\n- hosts: all\n  become: yes\n  tasks:\n"
    + "    - name: Install PostgreSQL\n      apt:\n        name: ",
    PackagePrefix,
    "\n        state: present\n\n",
    "    - name: Configure PostgreSQL\n"
    + "      template:\n        src: pg_hba.conf.j2\n        dest: ",
    ConfigDir,
    HbaFile,
    "\n      notify: restart postgresql\n\n",
    "    - name: Set max_connections and shared_buffers\n"
    + "      lineinfile:\n        path: ",
    ConfFile,
    "\n        regexp: '^{ item.key }'"
    + "\n        line: '{ item.key } = { item.value }'\n"
    + "      with_items:\n",
    "        - { 'max_connections: ' + ",
    MaxConnectionsExpr,
    "        - { 'shared_buffers: ' + ",
    SharedBuffersExpr,
    " }\n",
    "\n  handlers:\n    - name: restart postgresql\n"
    + "      service:\n        name: postgresql\n        state: restarted\n")

  /** The version a playbook text was written for. */
  function PlaybookVersion(text: string): string {
    VersionIn(PlaybookTemplate, text)
  }

  /** The playbook text `generate_all` writes for a setup: the version can be read back out of it. */
  function PlaybookText(s: Setup): (text: string)
    ensures PlaybookVersion(text) == s.postgresVersion
  {
    FillVersionRoundTrip(PlaybookTemplate, s.postgresVersion);
    Fill(PlaybookTemplate, s.postgresVersion)
  }

  /**
   * The playbook depends on the version and on nothing else: two setups give
   * the same playbook exactly when their versions are equal, whatever their
   * instance types, replica counts, connection limits and buffer sizes.
   */
  lemma PlaybookDependsOnlyOnVersion(s1: Setup, s2: Setup)
    ensures PlaybookText(s1) == PlaybookText(s2) <==> s1.postgresVersion == s2.postgresVersion
  {
  }

  /** The version names the package and both configuration paths. */
  lemma PlaybookMentionsVersion(s: Setup)
    ensures Contains(PlaybookText(s), PackagePrefix + s.postgresVersion)
    ensures Contains(PlaybookText(s), ConfigDir + s.postgresVersion + HbaFile)
    ensures Contains(PlaybookText(s), ConfigDir + s.postgresVersion + ConfFile)
  {
    FillMentionsVersion(PlaybookTemplate, s.postgresVersion);
  }

  /**
   * The two settings items reach the file as the literal expressions, not as
   * the configured values: the text is the same whatever `max_connections`
   * and `shared_buffers` are.
   */
  lemma PlaybookSettingsNotSubstituted(s: Setup, maxConnections: int, sharedBuffers: string)
    ensures Contains(PlaybookText(s), MaxConnectionsExpr)
    ensures Contains(PlaybookText(s), SharedBuffersExpr)
    ensures PlaybookText(s) == PlaybookText(s.(maxConnections := maxConnections, sharedBuffers := sharedBuffers))
  {
    FillHoldsMaxConnections(PlaybookTemplate, s.postgresVersion);
    FillHoldsSharedBuffers(PlaybookTemplate, s.postgresVersion);
  }
}

=== FILE: terraform.dfy ===
/**
 * The Terraform descriptor written by `generate_all`: a provider block, the
 * primary `aws_instance`, the replica instances built by
 * `generate_replica_resources`, and the `primary_ip` output.
 *
 * Both instance blocks come from the same template, so they are one function
 * here (`InstanceBlock`) applied to a resource name and a `Name` tag.
 */
module Terraform {
  import opened Text
  import opened Validation

  // The fixed text of an `aws_instance` block, around its three holes.
  const ResourceOpen: string := "resource \"aws_instance\" \""
  const NameClose: string := "\" {\n"
  const AmiLine: string := AmiAssign + AmiComment
  const AmiAssign: string := "  ami           = \"ami-12345678\""
  const AmiComment: string := "  # Replace with a valid PostgreSQL AMI\n"
  const TypeOpen: string := "  instance_type = \""
  const TypeClose: string := "\"\n"
  const TagOpen: string := "  tags = {\n    Name = \""
  const TagClose: string := "\"\n  }\n}\n"

  const ProviderBlock: string := ProviderOpen + ProviderRegion
  const ProviderOpen: string := "\nprovider \"aws\" {\n"
  const ProviderRegion: string := "  region = \"us-east-1\"\n}\n\n"

  const OutputBlock: string := OutputOpen + OutputValue + OutputAddress
  const OutputOpen: string := "output \"primary_ip\" {\n"
  const OutputValue: string := "  value = aws_instance."
  const OutputAddress: string := "primary.public_ip\n}\n"

  const PrimaryName: string := "primary"
  const PrimaryTag: string := "PrimaryPostgres"
  const ReplicaPrefix: string := "replica_"
  const ReplicaTagPrefix: string := "ReplicaPostgres"

  /** The keyword that opens every resource block. */
  const ResourceKeyword: string := "resource"

  /** An `aws_instance` resource block with the given resource name, instance type and `Name` tag. */
  function InstanceBlock(name: string, instanceType: string, tag: string): string {
    ResourceOpen + name + NameClose + AmiLine + TypeOpen + instanceType + TypeClose + TagOpen + tag + TagClose
  }

  function PrimaryBlock(instanceType: string): string {
    InstanceBlock(PrimaryName, instanceType, PrimaryTag)
  }

  function ReplicaName(i: nat): string {
    ReplicaPrefix + DecimalString(i)
  }

  function ReplicaTag(i: nat): string {
    ReplicaTagPrefix + DecimalString(i)
  }

  /** The text the loop appends for replica number `i` (numbered from 1). */
  function ReplicaBlock(i: nat, instanceType: string): string {
    "\n" + InstanceBlock(ReplicaName(i), instanceType, ReplicaTag(i))
  }

  /** The blocks of replicas 1..n, in increasing order; none when n <= 0. */
  function ReplicaBlocks(n: int, instanceType: string): seq<string> {
    if n <= 0 then [] else seq(n, k requires 0 <= k < n => ReplicaBlock(k + 1, instanceType))
  }

  /**
   * What `generate_replica_resources(n, instance_type)` returns: the blocks
   * of replicas 1..n, exactly as long as those blocks together.
   */
  function ReplicaResources(n: int, instanceType: string): (resources: string)
    ensures |resources| == BlockLengths(n, instanceType)
  {
    BlocksLength(n, instanceType);
    Concat(ReplicaBlocks(n, instanceType))
  }

  /** One more replica appends its block to the text of the ones before. */
  lemma ReplicaResourcesStep(n: nat, instanceType: string)
    ensures Concat(ReplicaBlocks(n + 1, instanceType))
            == Concat(ReplicaBlocks(n, instanceType)) + ReplicaBlock(n + 1, instanceType)
  {
    var blocks := ReplicaBlocks(n + 1, instanceType);
    assert blocks[..|blocks| - 1] == ReplicaBlocks(n, instanceType);
  }

  /** `generate_replica_resources`: appends one block per iteration of `range(num_replicas)`. */
  method GenerateReplicaResources(numReplicas: int, instanceType: string) returns (resources: string)
    ensures resources == ReplicaResources(numReplicas, instanceType)
  {
    resources := "";
    var i := 0;
    while i < numReplicas
      invariant 0 <= i <= (if numReplicas < 0 then 0 else numReplicas)
      invariant resources == ReplicaResources(i, instanceType)
    {
      ReplicaResourcesStep(i, instanceType);
      resources := resources + ReplicaBlock(i + 1, instanceType);
      i := i + 1;
    }
  }

  /**
   * The Terraform text `generate_all` writes for a setup: it opens with the
   * provider block, the primary block follows, the replica text starts after
   * it and a newline, and the `primary_ip` output block closes the text.
   */
  function TerraformText(s: Setup): (text: string)
    ensures OccursAt(text, ProviderBlock, 0)
    ensures OccursAt(text, PrimaryBlock(s.instanceType), |ProviderBlock|)
    ensures OccursAt(text, ReplicaResources(s.numReplicas, s.instanceType), ReplicasOffset(s.instanceType))
    ensures OccursAt(text, OutputBlock, |text| - |OutputBlock|)
    ensures |text| == ReplicasOffset(s.instanceType) + |ReplicaResources(s.numReplicas, s.instanceType)| + |"\n\n"| + |OutputBlock|
  {
    var replicas := ReplicaResources(s.numReplicas, s.instanceType);
    PiecesAt(ProviderBlock, PrimaryBlock(s.instanceType), "\n", replicas, "\n\n", OutputBlock);
    ProviderBlock + PrimaryBlock(s.instanceType) + "\n" + replicas + "\n\n" + OutputBlock
  }

  /**
   * The blocks come in increasing order: replica k's block starts right where
   * the text of replicas 1..k-1 ends.
   */
  lemma {:induction false} ReplicaBlockAt(n: int, instanceType: string, k: nat)
    requires 1 <= k <= n
    ensures OccursAt(ReplicaResources(n, instanceType), ReplicaBlock(k, instanceType),
                     |ReplicaResources(k - 1, instanceType)|)
    decreases n
  {
    ReplicaResourcesStep(n - 1, instanceType);
    if k == n {
      OccursSuffix(ReplicaResources(n - 1, instanceType), ReplicaBlock(n, instanceType));
    } else {
      ReplicaBlockAt(n - 1, instanceType, k);
      OccursExtend(ReplicaResources(n - 1, instanceType), ReplicaBlock(k, instanceType),
                   |ReplicaResources(k - 1, instanceType)|, ReplicaBlock(n, instanceType));
    }
  }

  /** Replicas are named `replica_1`, `replica_2`, ...: distinct numbers, distinct names. */
  lemma ReplicaNamesDistinct(i: nat, j: nat)
    ensures ReplicaName(i) == ReplicaName(j) <==> i == j
  {
    if ReplicaName(i) == ReplicaName(j) {
      assert ReplicaName(i)[|ReplicaPrefix|..] == DecimalString(i);
      assert ReplicaName(j)[|ReplicaPrefix|..] == DecimalString(j);
    }
    DecimalInjective(i, j);
  }

  /** A replica count of zero or less renders no replica at all, like zero. */
  lemma NonPositiveReplicasRenderNone(s: Setup)
    requires s.numReplicas <= 0
    ensures ReplicaResources(s.numReplicas, s.instanceType) == ""
    ensures TerraformText(s) == TerraformText(s.(numReplicas := 0))
  {
  }

  // ---------------------------------------------------------------------------
  // Length of the replica text

  /** The characters of a replica block other than the instance type and the two numbers. */
  const ReplicaBlockFixedLength: nat :=
    1 + |ResourceOpen| + |ReplicaPrefix| + |NameClose| + |AmiLine| + |TypeOpen|
    + |TypeClose| + |TagOpen| + |ReplicaTagPrefix| + |TagClose|

  /** A replica block holds the instance type once and its number twice. */
  lemma ReplicaBlockLength(i: nat, instanceType: string)
    ensures |ReplicaBlock(i, instanceType)|
            == ReplicaBlockFixedLength + |instanceType| + |DecimalString(i)| + |DecimalString(i)|
  {
  }

  /**
   * The total size of the blocks of replicas 1..n, block by block: the fixed
   * characters, the instance type, and the replica's number twice.
   */
  function BlockLengths(n: int, instanceType: string): nat {
    if n <= 0 then 0
    else BlockLengths(n - 1, instanceType) + ReplicaBlockFixedLength + |instanceType| + |DecimalString(n)| + |DecimalString(n)|
  }

  /** One more replica lengthens the text by that replica's block. */
  lemma BlocksGrow(n: nat, instanceType: string)
    ensures |Concat(ReplicaBlocks(n + 1, instanceType))|
            == |Concat(ReplicaBlocks(n, instanceType))| + ReplicaBlockFixedLength + |instanceType|
               + |DecimalString(n + 1)| + |DecimalString(n + 1)|
  {
    ReplicaResourcesStep(n, instanceType);
    ReplicaBlockLength(n + 1, instanceType);
  }

  /** The blocks of replicas 1..n are exactly as long as their lengths added up. */
  lemma {:induction false} BlocksLength(n: int, instanceType: string)
    ensures |Concat(ReplicaBlocks(n, instanceType))| == BlockLengths(n, instanceType)
  {
    if n > 0 {
      var m: nat := n - 1;
      BlocksLength(m, instanceType);
      BlocksGrow(m, instanceType);
      assert m + 1 == n;
    } else {
      assert ReplicaBlocks(n, instanceType) == [];
    }
  }

  // ---------------------------------------------------------------------------
  // Counting blocks
  //
  // The proofs below are stated for any pattern with the right characters
  // (`MarkerShape`) and only the final lemma names the two words counted.

  /** The two words counted in the Terraform text: the resource keyword and the replica name prefix. */
  predicate IsMarker(p: string) {
    p == ResourceKeyword || p == ReplicaPrefix
  }

  /**
   * What the counting proofs use about a pattern: it holds no quote, newline,
   * full stop or digit, and it holds 'r', 'e', 'c' and `key`, a character that neither
   * the fixed text nor the resource names and tags hold ('u' or '_').
   *
   * `key` stands for nothing in the generated text. It names the character each
   * proof uses to show that a piece holds no occurrence: 'u' for the keyword,
   * '_' for the replica prefix. Passing it along keeps the proofs from ever
   * comparing the pattern with the two literal words.
   */
  predicate MarkerShape(p: string, key: char) {
    && '"' !in p && '\n' !in p && '.' !in p && (forall k | 0 <= k < |p| :: !IsDigit(p[k]))
    && 'r' in p && 'e' in p && 'c' in p && key in p && (key == 'u' || key == '_')
  }

  lemma MarkerHasShape(p: string)
    requires IsMarker(p)
    ensures MarkerShape(p, if p == ResourceKeyword then 'u' else '_')
  {
  }

  /** The keyword opens the resource header once; the replica prefix is not in it. */
  lemma ResourceOpenCount(p: string)
    requires IsMarker(p)
    ensures Count(ResourceOpen, p) == (if p == ResourceKeyword then 1 else 0)
  {
    var rest := " \"aws_instance\" \"";
    assert ResourceOpen == ResourceKeyword + rest;
    if p == ResourceKeyword {
      HeadCount(ResourceKeyword, rest, 'u');
    } else {
      CountAbsent(ResourceOpen, p, 'p');
    }
  }

  /** The replica prefix holds itself once and the keyword not at all. */
  lemma ReplicaPrefixCount(p: string)
    requires IsMarker(p)
    ensures Count(ReplicaPrefix, p) == (if p == ReplicaPrefix then 1 else 0)
  {
    if p == ReplicaPrefix {
      CountSelf(p);
    } else {
      CountAbsent(ReplicaPrefix, p, 'u');
    }
  }

  /** Counting a word that heads a text whose remainder lacks one of its characters. */
  lemma HeadCount(p: string, rest: string, c: char)
    requires |p| > 0 && rest != [] && rest[0] !in p
    requires c in p && c !in rest
    ensures Count(p + rest, p) == 1
  {
    CountAppend(p, rest, p);
    CountSelf(p);
    CountAbsent(rest, p, c);
  }

  /** Every seam of an instance block sits next to a quote or a newline, so counts add up piece by piece. */
  lemma InstanceBlockCount(name: string, instanceType: string, tag: string, p: string)
    requires |p| > 0 && '"' !in p && '\n' !in p
    ensures Count(InstanceBlock(name, instanceType, tag), p)
            == Count(ResourceOpen, p) + Count(name, p) + Count(NameClose, p) + Count(AmiLine, p)
               + Count(TypeOpen, p) + Count(instanceType, p) + Count(TypeClose, p) + Count(TagOpen, p)
               + Count(tag, p) + Count(TagClose, p)
  {
    var x1 := ResourceOpen + name;
    CountAppend(ResourceOpen, name, p);
    var x2 := x1 + NameClose;
    CountAppend(x1, NameClose, p);
    var x3 := x2 + AmiLine;
    CountAppend(x2, AmiLine, p);
    var x4 := x3 + TypeOpen;
    CountAppend(x3, TypeOpen, p);
    var x5 := x4 + instanceType;
    CountAppend(x4, instanceType, p);
    var x6 := x5 + TypeClose;
    CountAppend(x5, TypeClose, p);
    var x7 := x6 + TagOpen;
    CountAppend(x6, TagOpen, p);
    var x8 := x7 + tag;
    CountAppend(x7, tag, p);
    CountAppend(x8, TagClose, p);
  }

  /** The AMI line holds no marker. */
  lemma AmiLineCount(p: string, key: char)
    requires MarkerShape(p, key)
    ensures Count(AmiLine, p) == 0
  {
    assert key !in AmiAssign && key !in AmiComment;
    CountAbsent(AmiLine, p, key);
  }

  /** Apart from the resource header, the fixed text of an instance block holds no marker. */
  lemma FixedTextCount(p: string, key: char)
    requires MarkerShape(p, key)
    ensures Count(NameClose, p) == 0 && Count(AmiLine, p) == 0 && Count(TypeOpen, p) == 0
    ensures Count(TypeClose, p) == 0 && Count(TagOpen, p) == 0 && Count(TagClose, p) == 0
  {
    AmiLineCount(p, key);
    CountAbsent(NameClose, p, 'r');
    CountAbsent(TypeClose, p, 'r');
    assert Count(TypeOpen, p) == 0 by {
      CountAbsent(TypeOpen, p, 'r');
    }
    assert Count(TagOpen, p) == 0 by {
      CountAbsent(TagOpen, p, 'r');
    }
    assert Count(TagClose, p) == 0 by {
      CountAbsent(TagClose, p, 'r');
    }
  }

  /** A replica's name counts what the prefix counts; its tag counts nothing. */
  lemma ReplicaNameTagCount(i: nat, p: string, key: char)
    requires MarkerShape(p, key)
    ensures Count(ReplicaName(i), p) == Count(ReplicaPrefix, p)
    ensures Count(ReplicaTag(i), p) == 0
  {
    var digits := DecimalString(i);
    NonDigitAbsent(digits, 'r');
    NonDigitAbsent(digits, key);
    assert IsDigit(digits[0]);
    CountAppend(ReplicaPrefix, digits, p);
    CountAbsent(digits, p, 'r');
    CountAbsent(ReplicaTag(i), p, key);
  }

  /** A replica block counts its header, its name's prefix and its instance type. */
  lemma ReplicaBlockCount(i: nat, instanceType: string, p: string, key: char)
    requires MarkerShape(p, key)
    ensures Count(ReplicaBlock(i, instanceType), p)
            == Count(ResourceOpen, p) + Count(ReplicaPrefix, p) + Count(instanceType, p)
  {
    var block := InstanceBlock(ReplicaName(i), instanceType, ReplicaTag(i));
    InstanceBlockCount(ReplicaName(i), instanceType, ReplicaTag(i), p);
    FixedTextCount(p, key);
    ReplicaNameTagCount(i, p, key);
    CountAppend("\n", block, p);
    CountAbsent("\n", p, 'r');
  }

  /** The primary block counts its header and its instance type. */
  lemma PrimaryBlockCount(instanceType: string, p: string, key: char)
    requires MarkerShape(p, key)
    ensures Count(PrimaryBlock(instanceType), p) == Count(ResourceOpen, p) + Count(instanceType, p)
  {
    InstanceBlockCount(PrimaryName, instanceType, PrimaryTag, p);
    FixedTextCount(p, key);
    CountAbsent(PrimaryName, p, key);
    CountAbsent(PrimaryTag, p, key);
  }

  /** What one replica block counts: its header, its name's prefix and its instance type. */
  function BlockMarks(instanceType: string, p: string): nat
    requires |p| > 0
  {
    Count(ResourceOpen, p) + Count(ReplicaPrefix, p) + Count(instanceType, p)
  }

  /** Every replica block starts on a new line. */
  lemma ReplicaBlockHead(i: nat, instanceType: string)
    ensures |ReplicaBlock(i, instanceType)| > 0 && ReplicaBlock(i, instanceType)[0] == '\n'
  {
  }

  lemma ReplicaBlockMarks(i: nat, instanceType: string, p: string, key: char)
    requires MarkerShape(p, key)
    ensures var block := ReplicaBlock(i, instanceType);
            |block| > 0 && block[0] !in p && Count(block, p) == BlockMarks(instanceType, p)
  {
    ReplicaBlockHead(i, instanceType);
    ReplicaBlockCount(i, instanceType, p, key);
  }

  /** n replica blocks count n times what one block counts. */
  lemma ReplicaResourcesCount(n: int, instanceType: string, p: string, key: char)
    requires MarkerShape(p, key)
    ensures Count(ReplicaResources(n, instanceType), p) == (if n <= 0 then 0 else n) * BlockMarks(instanceType, p)
  {
    var w := BlockMarks(instanceType, p);
    var blocks := ReplicaBlocks(n, instanceType);
    forall k | 0 <= k < |blocks|
      ensures |blocks[k]| > 0 && blocks[k][0] !in p && Count(blocks[k], p) == w
    {
      ReplicaBlockMarks(k + 1, instanceType, p, key);
    }
    ConcatCount(blocks, p, w);
  }

  /** No marker occurs in the provider block. */
  lemma ProviderCount(p: string, key: char)
    requires MarkerShape(p, key)
    ensures Count(ProviderBlock, p) == 0
  {
    assert 'c' !in ProviderOpen && 'c' !in ProviderRegion;
    CountAbsent(ProviderBlock, p, 'c');
  }

  /** No marker occurs in the output block. */
  lemma OutputCount(p: string, key: char)
    requires MarkerShape(p, key)
    ensures Count(OutputBlock, p) == 0
  {
    CountAbsent3(OutputOpen, OutputValue, OutputAddress, p, 'e', 'r', 'e');
  }

  /** The Terraform text counts what its primary block and its replica text count. */
  lemma TerraformCount(s: Setup, p: string, key: char)
    requires MarkerShape(p, key)
    ensures Count(TerraformText(s), p)
            == Count(PrimaryBlock(s.instanceType), p) + Count(ReplicaResources(s.numReplicas, s.instanceType), p)
  {
    var primary := PrimaryBlock(s.instanceType);
    var replicas := ReplicaResources(s.numReplicas, s.instanceType);
    var a1 := ProviderBlock + primary;
    CountAppend(ProviderBlock, primary, p);
    var a2 := a1 + "\n";
    CountAppend(a1, "\n", p);
    var a3 := a2 + replicas;
    CountAppend(a2, replicas, p);
    var a4 := a3 + "\n\n";
    CountAppend(a3, "\n\n", p);
    CountAppend(a4, OutputBlock, p);
    CountAbsent("\n", p, 'r');
    CountAbsent("\n\n", p, 'r');
    ProviderCount(p, key);
    OutputCount(p, key);
  }

  /** An instance type with no quote, no '_', and either no 'u' or no 'r'. */
  predicate PlainType(t: string) {
    '"' !in t && '_' !in t && ('u' !in t || 'r' !in t)
  }

  lemma ValidInstanceTypeIsPlain(t: string)
    requires t in ValidInstanceTypes
    ensures PlainType(t)
  {
  }

  /**
   * For a pattern that each replica block holds once, the Terraform text
   * counts the primary header and then one per replica.
   */
  lemma MarkerCount(s: Setup, p: string, key: char)
    requires MarkerShape(p, key) && Count(s.instanceType, p) == 0 && BlockMarks(s.instanceType, p) == 1
    ensures Count(TerraformText(s), p)
            == Count(ResourceOpen, p) + (if s.numReplicas <= 0 then 0 else s.numReplicas)
  {
    TerraformCount(s, p, key);
    PrimaryBlockCount(s.instanceType, p, key);
    ReplicaResourcesCount(s.numReplicas, s.instanceType, p, key);
  }

  lemma PlainTypeLacksMarkers(t: string)
    requires PlainType(t)
    ensures Count(t, ResourceKeyword) == 0 && Count(t, ReplicaPrefix) == 0
  {
    if 'u' !in t {
      CountAbsent(t, ResourceKeyword, 'u');
    } else {
      CountAbsent(t, ResourceKeyword, 'r');
    }
    CountAbsent(t, ReplicaPrefix, '_');
  }

  /** The resource header holds the keyword once. */
  lemma KeywordOpensResource()
    ensures Count(ResourceOpen, ResourceKeyword) == 1
  {
    ResourceOpenCount(ResourceKeyword);
  }

  /** The resource header holds no replica prefix. */
  lemma PrefixNotInHeader()
    ensures Count(ResourceOpen, ReplicaPrefix) == 0
  {
    ResourceOpenCount(ReplicaPrefix);
  }

  /** A replica block counts the keyword once, in its header, when its instance type lacks it. */
  lemma KeywordMarks(t: string)
    requires PlainType(t)
    ensures Count(t, ResourceKeyword) == 0 && BlockMarks(t, ResourceKeyword) == 1
  {
    PlainTypeLacksMarkers(t);
    KeywordOpensResource();
    ReplicaPrefixCount(ResourceKeyword);
  }

  /** A replica block counts the prefix once, in its name, when its instance type lacks it. */
  lemma PrefixMarks(t: string)
    requires PlainType(t)
    ensures Count(t, ReplicaPrefix) == 0 && BlockMarks(t, ReplicaPrefix) == 1
  {
    PlainTypeLacksMarkers(t);
    PrefixNotInHeader();
    ReplicaPrefixCount(ReplicaPrefix);
  }

  /** A Terraform text whose instance type lacks the keyword opens n + 1 resources. */
  lemma KeywordCount(s: Setup)
    requires PlainType(s.instanceType)
    ensures Count(TerraformText(s), ResourceKeyword) == (if s.numReplicas <= 0 then 0 else s.numReplicas) + 1
  {
    MarkerHasShape(ResourceKeyword);
    KeywordMarks(s.instanceType);
    MarkerCount(s, ResourceKeyword, 'u');
    KeywordOpensResource();
  }

  /** A Terraform text whose instance type lacks the prefix names n replicas. */
  lemma PrefixCount(s: Setup)
    requires PlainType(s.instanceType)
    ensures Count(TerraformText(s), ReplicaPrefix) == (if s.numReplicas <= 0 then 0 else s.numReplicas)
  {
    MarkerHasShape(ReplicaPrefix);
    PrefixMarks(s.instanceType);
    MarkerCount(s, ReplicaPrefix, '_');
    PrefixNotInHeader();
  }

  /**
   * For an allowed instance type, the Terraform text opens exactly n + 1
   * resources and names exactly n replicas (none when n <= 0): one primary
   * block and one block per replica.
   */
  lemma TerraformBlockCounts(s: Setup)
    requires s.instanceType in ValidInstanceTypes
    ensures var n := if s.numReplicas <= 0 then 0 else s.numReplicas;
            && Count(TerraformText(s), ResourceKeyword) == n + 1
            && Count(TerraformText(s), ReplicaPrefix) == n
  {
    ValidInstanceTypeIsPlain(s.instanceType);
    KeywordCount(s);
    PrefixCount(s);
  }

  // ---------------------------------------------------------------------------
  // Reading the instance type back

  /** Where the instance type starts in the primary block. */
  const PrimaryTypeInBlock: nat :=
    |ResourceOpen| + |PrimaryName| + |NameClose| + |AmiLine| + |TypeOpen|

  /** Where the primary block's instance type starts in the Terraform text. */
  const PrimaryTypeOffset: nat := |ProviderBlock| + PrimaryTypeInBlock

  /** A word followed by a piece that opens with a quote occurs with that quote, wherever the text goes on. */
  lemma QuotedAt(x: string, w: string, close: string, y1: string, y2: string, y3: string)
    requires |close| > 0 && close[0] == '"'
    ensures OccursAt(x + w + close + y1 + y2 + y3, w + "\"", |x|)
  {
    var q := w + "\"";
    assert (x + w + close)[|x|..|x| + |q|] == q;
    OccursExtend(x + w + close, q, |x|, y1);
    OccursExtend(x + w + close + y1, q, |x|, y2);
    OccursExtend(x + w + close + y1 + y2, q, |x|, y3);
  }

  /** The primary block holds its instance type right after `instance_type = "`, closed by a quote. */
  lemma PrimaryTypeAt(instanceType: string)
    ensures OccursAt(PrimaryBlock(instanceType), instanceType + "\"", PrimaryTypeInBlock)
  {
    QuotedAt(ResourceOpen + PrimaryName + NameClose + AmiLine + TypeOpen, instanceType, TypeClose,
             TagOpen, PrimaryTag, TagClose);
  }

  /** The primary block carries `instance_type` verbatim, followed by its closing quote. */
  lemma TerraformInstanceTypeAt(s: Setup)
    ensures OccursAt(TerraformText(s), s.instanceType + "\"", PrimaryTypeOffset)
  {
    var text := TerraformText(s);
    PrimaryTypeAt(s.instanceType);
    OccursWithin(text, PrimaryBlock(s.instanceType), |ProviderBlock|, s.instanceType + "\"", PrimaryTypeInBlock,
                 PrimaryTypeOffset);
  }

  /** Where the replica text starts: after the provider block, the primary block and a newline. */
  function ReplicasOffset(instanceType: string): nat {
    |ProviderBlock + PrimaryBlock(instanceType) + "\n"|
  }

  /** Where each piece of a six-piece text lies: the shape of `TerraformText`. */
  lemma PiecesAt(a: string, b: string, c: string, d: string, e: string, f: string)
    ensures OccursAt(a + b + c + d + e + f, a, 0)
    ensures OccursAt(a + b + c + d + e + f, b, |a|)
    ensures OccursAt(a + b + c + d + e + f, d, |a + b + c|)
    ensures OccursAt(a + b + c + d + e + f, f, |a + b + c + d + e + f| - |f|)
    ensures |a + b + c + d + e + f| == |a + b + c| + |d| + |e| + |f|
  {
    var x := a + b + c + d + e + f;
    assert x[0..|a|] == a;
    assert x[|a|..|a| + |b|] == b;
    assert x[|a| + |b| + |c|..|a| + |b| + |c| + |d|] == d;
    assert x[|x| - |f|..|x|] == f;
  }

  /**
   * For allowed instance types and non-negative replica counts, two setups
   * give the same Terraform text exactly when they agree on the instance type
   * and the replica count: the text determines both.
   */
  lemma TerraformDeterminesTypeAndCount(s1: Setup, s2: Setup)
    requires s1.instanceType in ValidInstanceTypes && s2.instanceType in ValidInstanceTypes
    requires s1.numReplicas >= 0 && s2.numReplicas >= 0
    ensures TerraformText(s1) == TerraformText(s2)
            <==> s1.instanceType == s2.instanceType && s1.numReplicas == s2.numReplicas
  {
    if TerraformText(s1) == TerraformText(s2) {
      TerraformBlockCounts(s1);
      TerraformBlockCounts(s2);
      TerraformInstanceTypeAt(s1);
      TerraformInstanceTypeAt(s2);
      ValidInstanceTypeIsPlain(s1.instanceType);
      ValidInstanceTypeIsPlain(s2.instanceType);
      TerminatedUnique(TerraformText(s1), s1.instanceType, s2.instanceType, '"', PrimaryTypeOffset);
    }
  }
}

=== FILE: text.dfy ===
/**
 * String helpers shared by the validator and the two renderers: ASCII digits,
 * Python's `str(n)` for naturals and its inverse, `str.join`, substring
 * containment, and the number of (possibly overlapping) occurrences of a
 * pattern in a text.
 */
module Text {

  predicate IsDigit(c: char) {
    '0' <= c <= '9'
  }

  /** Every character is an ASCII digit (the empty string included). */
  predicate AllDigits(s: string) {
    forall i :: 0 <= i < |s| ==> IsDigit(s[i])
  }

  /** One or more ASCII digits: what `\d+` matches in this model. */
  predicate IsDigits(s: string) {
    |s| > 0 && AllDigits(s)
  }

  function DigitChar(d: nat): (c: char)
    requires d < 10
    ensures IsDigit(c) && DigitValue(c) == d
  {
    (('0' as int) + d) as char
  }

  function DigitValue(c: char): nat
    requires IsDigit(c)
  {
    (c as int) - ('0' as int)
  }

  /** Python's `str(n)` for a natural number: decimal digits, no leading zero. */
  function DecimalString(n: nat): (s: string)
    ensures IsDigits(s)
    ensures s[0] == '0' ==> n == 0
    ensures n < 10 <==> |s| == 1
  {
    if n < 10 then [DigitChar(n)] else DecimalString(n / 10) + [DigitChar(n % 10)]
  }

  /** The number a string of digits denotes (the inverse of `DecimalString`). */
  function DigitsValue(s: string): nat
    requires AllDigits(s)
  {
    if s == [] then 0 else DigitsValue(s[..|s| - 1]) * 10 + DigitValue(s[|s| - 1])
  }

  lemma {:induction false} DecimalRoundTrip(n: nat)
    ensures DigitsValue(DecimalString(n)) == n
  {
    var s := DecimalString(n);
    if n >= 10 {
      DecimalRoundTrip(n / 10);
      assert s[..|s| - 1] == DecimalString(n / 10);
    }
  }

  /** Distinct numbers are rendered as distinct strings. */
  lemma DecimalInjective(m: nat, n: nat)
    ensures DecimalString(m) == DecimalString(n) <==> m == n
  {
    DecimalRoundTrip(m);
    DecimalRoundTrip(n);
  }

  /** Python's `sep.join(items)`. */
  function Join(items: seq<string>, sep: string): string {
    if |items| == 0 then ""
    else if |items| == 1 then items[0]
    else items[0] + sep + Join(items[1..], sep)
  }

  /** `w` occurs in `s` starting at position `i`. */
  predicate OccursAt(s: string, w: string, i: int) {
    0 <= i <= |s| - |w| && s[i..i + |w|] == w
  }

  /** `w` occurs somewhere in `s` as a contiguous substring. */
  predicate Contains(s: string, w: string) {
    exists i | 0 <= i <= |s| - |w| :: OccursAt(s, w, i)
  }

  lemma ContainsMiddle(a: string, w: string, b: string)
    ensures OccursAt(a + w + b, w, |a|)
    ensures Contains(a + w + b, w)
  {
    assert (a + w + b)[|a|..|a| + |w|] == w;
    assert OccursAt(a + w + b, w, |a|);
  }

  lemma ContainsWithin(x: string, w: string, a: string, b: string)
    requires Contains(x, w)
    ensures Contains(a + x + b, w)
  {
    var i :| 0 <= i <= |x| - |w| && OccursAt(x, w, i);
    assert (a + x + b)[|a| + i..|a| + i + |w|] == x[i..i + |w|];
    assert OccursAt(a + x + b, w, |a| + i);
  }

  /** A text ending in `w` holds `w` right after its beginning. */
  lemma OccursSuffix(x: string, w: string)
    ensures OccursAt(x + w, w, |x|)
  {
    assert (x + w)[|x|..|x| + |w|] == w;
  }

  /** Two pieces appended in turn occur together. */
  lemma OccursPair(x: string, a: string, b: string)
    ensures OccursAt(x + a + b, a + b, |x|)
  {
    assert x + a + b == x + (a + b);
    OccursSuffix(x, a + b);
  }

  /** Three pieces appended in turn occur together. */
  lemma OccursTriple(x: string, a: string, b: string, c: string)
    ensures OccursAt(x + a + b + c, a + b + c, |x|)
  {
    assert x + a + b + c == x + (a + b + c);
    OccursSuffix(x, a + b + c);
  }

  /** An occurrence stays where it is when text is appended. */
  lemma OccursExtend(x: string, w: string, i: int, y: string)
    requires OccursAt(x, w, i)
    ensures OccursAt(x + y, w, i)
  {
    assert (x + y)[i..i + |w|] == x[i..i + |w|];
  }

  /** An occurrence moves right by the length of text prepended. */
  lemma OccursShift(y: string, x: string, w: string, i: int)
    requires OccursAt(x, w, i)
    ensures OccursAt(y + x, w, |y| + i)
  {
    assert (y + x)[|y| + i..|y| + i + |w|] == x[i..i + |w|];
  }

  /**
   * An occurrence inside an occurring piece is an occurrence in the whole
   * text, at offset `k`, the piece's offset plus the occurrence's.
   */
  lemma OccursWithin(s: string, x: string, i: int, w: string, j: int, k: int)
    requires OccursAt(s, x, i) && OccursAt(x, w, j) && k == i + j
    ensures OccursAt(s, w, k)
  {
    assert x == s[i..i + |x|];
    assert forall k | 0 <= k < |w| :: s[i + j + k] == x[j + k] == w[k];
    assert s[i + j..i + j + |w|] == w;
  }

  /** An occurrence in one of four consecutive pieces, placed in the whole. */
  lemma OccursInFirst(a: string, b: string, c: string, d: string, w: string, i: int)
    requires OccursAt(a, w, i)
    ensures OccursAt(a + b + c + d, w, i)
  {
    OccursExtend(a, w, i, b);
    OccursExtend(a + b, w, i, c);
    OccursExtend(a + b + c, w, i, d);
  }

  lemma OccursInSecond(a: string, b: string, c: string, d: string, w: string, i: int)
    requires OccursAt(b, w, i)
    ensures OccursAt(a + b + c + d, w, |a| + i)
  {
    OccursShift(a, b, w, i);
    OccursExtend(a + b, w, |a| + i, c);
    OccursExtend(a + b + c, w, |a| + i, d);
  }

  lemma OccursInThird(a: string, b: string, c: string, d: string, w: string, i: int)
    requires OccursAt(c, w, i)
    ensures OccursAt(a + b + c + d, w, |a| + |b| + i)
  {
    OccursShift(a + b, c, w, i);
    OccursExtend(a + b + c, w, |a| + |b| + i, d);
  }

  /**
   * Two words that both occur at `k` followed by a terminator `c` they do not
   * contain are the same word: the first `c` from `k` on ends both.
   */
  lemma TerminatedUnique(s: string, a: string, b: string, c: char, k: int)
    requires OccursAt(s, a + [c], k) && OccursAt(s, b + [c], k)
    requires c !in a && c !in b
    ensures a == b
  {
    assert s[k + |a|] == (a + [c])[|a|] == c;
    assert s[k + |b|] == (b + [c])[|b|] == c;
    assert forall j | 0 <= j < |a| :: s[k + j] == (a + [c])[j] == a[j];
    assert forall j | 0 <= j < |b| :: s[k + j] == (b + [c])[j] == b[j];
    assert |a| == |b|;
    assert a == s[k..k + |a|][..|a|] == b;
  }

  /** Every item is listed in the joined text, whatever the separator. */
  lemma {:induction false} JoinContainsEach(items: seq<string>, sep: string, k: nat)
    requires k < |items|
    ensures Contains(Join(items, sep), items[k])
  {
    if |items| == 1 {
      ContainsMiddle("", items[0], "");
      assert "" + items[0] + "" == Join(items, sep);
    } else if k == 0 {
      ContainsMiddle("", items[0], sep + Join(items[1..], sep));
      assert "" + items[0] + (sep + Join(items[1..], sep)) == Join(items, sep);
    } else {
      JoinContainsEach(items[1..], sep, k - 1);
      ContainsWithin(Join(items[1..], sep), items[k], items[0] + sep, "");
      assert items[0] + sep + Join(items[1..], sep) + "" == Join(items, sep);
    }
  }

  /** Number of positions of `s` at which `p` starts (occurrences may overlap). */
  function Count(s: string, p: string): nat
    requires |p| > 0
    decreases |s|
  {
    if |s| < |p| then 0 else (if s[..|p|] == p then 1 else 0) + Count(s[1..], p)
  }

  /**
   * Counting is additive over a concatenation when no occurrence can straddle
   * the seam: one of the two characters at the seam does not occur in `p`.
   */
  lemma {:induction false} CountAppend(a: string, b: string, p: string)
    requires |p| > 0
    requires a == [] || b == [] || a[|a| - 1] !in p || b[0] !in p
    ensures Count(a + b, p) == Count(a, p) + Count(b, p)
    decreases |a|
  {
    if a == [] {
      assert a + b == b;
    } else if |a + b| >= |p| {
      assert (a + b)[1..] == a[1..] + b;
      CountAppend(a[1..], b, p);
      if |a| >= |p| {
        assert (a + b)[..|p|] == a[..|p|];
      } else {
        assert (a + b)[..|p|] != p by {
          if a[|a| - 1] !in p {
            assert (a + b)[..|p|][|a| - 1] == a[|a| - 1];
          } else {
            assert (a + b)[..|p|][|a|] == b[0];
          }
        }
      }
    }
  }

  /** A text that lacks one of the pattern's characters holds no occurrence. */
  lemma {:induction false} CountAbsent(s: string, p: string, c: char)
    requires |p| > 0 && c in p && c !in s
    ensures Count(s, p) == 0
    decreases |s|
  {
    if |s| >= |p| {
      var i :| 0 <= i < |p| && p[i] == c;
      assert s[..|p|][i] != c;
      assert c !in s[1..];
      CountAbsent(s[1..], p, c);
    }
  }

  lemma CountSelf(p: string)
    requires |p| > 0
    ensures Count(p, p) == 1
  {
    assert p[..|p|] == p;
  }

  /** Two pieces, each lacking some character of `p`, with a seam no occurrence can cross. */
  lemma CountAbsent2(a: string, b: string, p: string, ca: char, cb: char)
    requires |p| > 0 && a != [] && (a[|a| - 1] !in p || b == [] || b[0] !in p)
    requires ca in p && ca !in a && cb in p && cb !in b
    ensures Count(a + b, p) == 0
  {
    CountAppend(a, b, p);
    CountAbsent(a, p, ca);
    CountAbsent(b, p, cb);
  }

  /** Three pieces, each lacking some character of `p`, with seams no occurrence can cross. */
  lemma CountAbsent3(a: string, b: string, c: string, p: string, ca: char, cb: char, cc: char)
    requires |p| > 0 && a != [] && b != [] && a[|a| - 1] !in p && b[|b| - 1] !in p
    requires ca in p && ca !in a && cb in p && cb !in b && cc in p && cc !in c
    ensures Count(a + b + c, p) == 0
  {
    CountAbsent2(a, b, p, ca, cb);
    assert (a + b)[|a + b| - 1] == b[|b| - 1];
    CountAppend(a + b, c, p);
    CountAbsent(c, p, cc);
  }

  /** Characters that are not digits never occur in a string of digits. */
  lemma NonDigitAbsent(s: string, c: char)
    requires AllDigits(s) && !IsDigit(c)
    ensures c !in s
  {
  }

  /** The concatenation of a list of strings, in order. */
  function Concat(parts: seq<string>): string {
    if parts == [] then "" else Concat(parts[..|parts| - 1]) + parts[|parts| - 1]
  }

  lemma MulSucc(m: nat, w: int)
    ensures m * w + w == (m + 1) * w
  {
  }

  /**
   * When every part starts with a character that `p` lacks and counts `w`,
   * their concatenation counts `w` once per part.
   */
  lemma {:induction false} ConcatCount(parts: seq<string>, p: string, w: nat)
    requires |p| > 0
    requires forall k | 0 <= k < |parts| :: |parts[k]| > 0 && parts[k][0] !in p && Count(parts[k], p) == w
    ensures Count(Concat(parts), p) == |parts| * w
  {
    if parts != [] {
      var init, last := parts[..|parts| - 1], parts[|parts| - 1];
      ConcatCount(init, p, w);
      CountAppend(Concat(init), last, p);
      MulSucc(|init|, w);
    }
  }
}

=== FILE: timestamps.dfy ===
/**
 * `generate_timestamped_filename`: a base name, the clock reading rendered by
 * `strftime("%Y%m%d%H%M%S")`, and an extension. Reading the clock is I/O, so
 * the reading is a parameter here.
 */
module Timestamps {
  import opened Text

  /** A reading of `datetime.now()`. */
  datatype DateTime = DateTime(
    year: int, month: int, day: int,
    hour: int, minute: int, second: int, microsecond: int)

  predicate IsLeapYear(y: int) {
    y % 4 == 0 && (y % 100 != 0 || y % 400 == 0)
  }

  function DaysInMonth(y: int, m: int): int
    requires 1 <= m <= 12
  {
    if m == 2 then (if IsLeapYear(y) then 29 else 28)
    else if m == 4 || m == 6 || m == 9 || m == 11 then 30
    else 31
  }

  /** The ranges every Python `datetime` keeps its fields in. */
  predicate ValidDateTime(t: DateTime) {
    && 1 <= t.year <= 9999
    && 1 <= t.month <= 12
    && 1 <= t.day <= DaysInMonth(t.year, t.month)
    && 0 <= t.hour < 24
    && 0 <= t.minute < 60
    && 0 <= t.second < 60
    && 0 <= t.microsecond < 1000000
  }

  /** The reading with its sub-second part dropped: all that the timestamp keeps. */
  function ToSecond(t: DateTime): DateTime {
    t.(microsecond := 0)
  }

  /** `%m`, `%d`, `%H`, `%M`, `%S`: two digits, zero-padded. */
  function TwoDigits(n: nat): (s: string)
    requires n < 100
    ensures |s| == 2 && AllDigits(s) && DigitsValue(s) == n
  {
    var s := [DigitChar(n / 10), DigitChar(n % 10)];
    assert s[..1] == [DigitChar(n / 10)];
    assert s[..1][..0] == [];
    assert DigitsValue(s[..1]) == n / 10;
    s
  }

  /** Years 1000 to 9999 are written with four digits. */
  lemma FourDigitYear(y: nat)
    requires y <= 9999
    ensures 1000 <= y ==> |DecimalString(y)| == 4
  {
    if 1000 <= y {
      assert |DecimalString(y / 1000)| == 1;
      assert |DecimalString(y / 100)| == |DecimalString(y / 1000)| + 1;
      assert |DecimalString(y / 10)| == |DecimalString(y / 100)| + 1;
    }
  }

  /**
   * `strftime("%Y%m%d%H%M%S")`. `%Y` is the year's decimal digits as the C
   * library on Linux prints them: four digits for every year from 1000 on.
   */
  function Timestamp(t: DateTime): (s: string)
    requires ValidDateTime(t)
    ensures IsDigits(s) && |s| > 10
    ensures 1000 <= t.year ==> |s| == 14
  {
    FourDigitYear(t.year);
    DecimalString(t.year) + TwoDigits(t.month) + TwoDigits(t.day)
    + TwoDigits(t.hour) + TwoDigits(t.minute) + TwoDigits(t.second)
  }

  /** Reads a timestamp back: the year is everything before the last ten digits. */
  function ParseTimestamp(s: string): DateTime
    requires |s| > 10 && AllDigits(s)
  {
    var n := |s|;
    DateTime(
      DigitsValue(s[..n - 10]), DigitsValue(s[n - 10..n - 8]), DigitsValue(s[n - 8..n - 6]),
      DigitsValue(s[n - 6..n - 4]), DigitsValue(s[n - 4..n - 2]), DigitsValue(s[n - 2..]),
      0)
  }

  lemma TimestampRoundTrip(t: DateTime)
    requires ValidDateTime(t)
    ensures ParseTimestamp(Timestamp(t)) == ToSecond(t)
  {
    var y := DecimalString(t.year);
    var s := Timestamp(t);
    var n := |s|;
    assert s[..n - 10] == y;
    assert s[n - 10..n - 8] == TwoDigits(t.month);
    assert s[n - 8..n - 6] == TwoDigits(t.day);
    assert s[n - 6..n - 4] == TwoDigits(t.hour);
    assert s[n - 4..n - 2] == TwoDigits(t.minute);
    assert s[n - 2..] == TwoDigits(t.second);
    DecimalRoundTrip(t.year);
  }

  /** Two readings give the same timestamp exactly when they fall in the same second. */
  lemma TimestampSameSecond(t1: DateTime, t2: DateTime)
    requires ValidDateTime(t1) && ValidDateTime(t2)
    ensures Timestamp(t1) == Timestamp(t2) <==> ToSecond(t1) == ToSecond(t2)
  {
    TimestampRoundTrip(t1);
    TimestampRoundTrip(t2);
  }

  /** The part of `b_x.e` between the underscore and the last dot is `x`. */
  lemma MiddleOf(b: string, x: string, e: string)
    ensures var name := b + "_" + x + "." + e;
            |name| == |b| + |x| + |e| + 2 && name[|b| + 1..|name| - |e| - 1] == x
  {
    var name := b + "_" + x + "." + e;
    assert name == (b + "_") + x + ("." + e);
  }

  /**
   * `generate_timestamped_filename(base_name, extension)` at clock reading
   * `now`: the base name and an underscore, the timestamp's digits, then a
   * dot and the extension. The digits read back as `now` to the second.
   */
  function TimestampedFilename(baseName: string, extension: string, now: DateTime): (name: string)
    requires ValidDateTime(now)
    ensures |name| > |baseName| + |extension| + 12
    ensures name[..|baseName| + 1] == baseName + "_"
    ensures name[|name| - |extension| - 1..] == "." + extension
    ensures IsDigits(name[|baseName| + 1..|name| - |extension| - 1])
    ensures ParseTimestamp(name[|baseName| + 1..|name| - |extension| - 1]) == ToSecond(now)
    ensures |name| == |baseName| + |Timestamp(now)| + |extension| + 2
  {
    var name := baseName + "_" + Timestamp(now) + "." + extension;
    MiddleOf(baseName, Timestamp(now), extension);
    TimestampRoundTrip(now);
    name
  }

  /**
   * For one base name and extension, two calls give the same file name exactly
   * when their clock readings fall in the same second: readings within one
   * second collide.
   */
  lemma FilenameCollision(baseName: string, extension: string, t1: DateTime, t2: DateTime)
    requires ValidDateTime(t1) && ValidDateTime(t2)
    ensures TimestampedFilename(baseName, extension, t1) == TimestampedFilename(baseName, extension, t2)
            <==> ToSecond(t1) == ToSecond(t2)
  {
    TimestampSameSecond(t1, t2);
    MiddleOf(baseName, Timestamp(t1), extension);
    MiddleOf(baseName, Timestamp(t2), extension);
  }
}

=== FILE: validation.dfy ===
/**
 * The request body `PostgreSQLSetup` and its field validators.
 *
 * The two regular expressions are given twice: as a declarative pattern over
 * the whole value (`SharedBuffersPattern`, `PostgresVersionPattern`) and as the
 * left-to-right scan a backtracking matcher performs for them
 * (`ScanSharedBuffers`, `ScanPostgresVersion`); the two are proved to agree,
 * and `MatchSharedBuffers` and `MatchPostgresVersion`, the calls the validators
 * make, state the pattern.
 *
 * `\d` is an ASCII digit here. Python's `$` matches at the end of the string
 * or just before a single newline that ends it, so a value such as "256MB\n"
 * is accepted, and returned with its newline.
 */
module Validation {
  import opened Text

  datatype Result<T, E> = Ok(value: T) | Err(error: E)

  /** One submitted configuration: the fields of `PostgreSQLSetup`. */
  datatype Setup = Setup(
    postgresVersion: string,
    instanceType: string,
    numReplicas: int,
    maxConnections: int,
    sharedBuffers: string)

  /** The fields of `PostgreSQLSetup`, in declaration order. */
  datatype Field = PostgresVersion | InstanceType | NumReplicas | MaxConnections | SharedBuffers

  datatype FieldError =
    | Invalid(field: Field, message: string)   // a validator raised ValueError(message)
    | BelowMinimum(field: Field, limit: int)   // the `conint(ge=limit)` constraint failed

  /** The allow-list of EC2 instance types. */
  const ValidInstanceTypes: seq<string> := [
    "t2.micro", "t2.small", "t2.medium",
    "t3.micro", "t3.small", "t3.medium",
    "m5.large", "m5.xlarge", "m5.2xlarge"
  ]

  const MinConnections: int := 1

  const SharedBuffersMessage: string :=
    "Invalid format for shared_buffers. Use formats like '256MB' or '1GB'."

  const PostgresVersionMessage: string :=
    "PostgreSQL version must be in the format X.YY.ZZ (e.g., 14.10.20)."

  function InstanceTypeMessage(v: string): string {
    "Invalid instance type: '" + v + "'. Valid types are: " + Join(ValidInstanceTypes, ", ")
  }

  /** `check_instance_type`: the value unchanged, or the message naming it. */
  function CheckInstanceType(v: string): (r: Result<string, string>)
    ensures r.Ok? <==> v in ValidInstanceTypes
    ensures r.Ok? ==> r.value == v
    ensures r.Err? ==> r.error == InstanceTypeMessage(v)
  {
    if v !in ValidInstanceTypes then Err(InstanceTypeMessage(v)) else Ok(v)
  }

  /** A refused instance type is named in the message, next to every accepted one. */
  lemma InstanceTypeRejection(v: string)
    requires v !in ValidInstanceTypes
    ensures CheckInstanceType(v).Err?
    ensures Contains(CheckInstanceType(v).error, v)
    ensures forall k :: 0 <= k < |ValidInstanceTypes| ==>
              Contains(CheckInstanceType(v).error, ValidInstanceTypes[k])
  {
    var head := "Invalid instance type: '";
    var tail := "'. Valid types are: " + Join(ValidInstanceTypes, ", ");
    ContainsMiddle(head, v, tail);
    assert head + v + tail == InstanceTypeMessage(v);
    forall k | 0 <= k < |ValidInstanceTypes|
      ensures Contains(CheckInstanceType(v).error, ValidInstanceTypes[k])
    {
      JoinContainsEach(ValidInstanceTypes, ", ", k);
      ContainsWithin(Join(ValidInstanceTypes, ", "), ValidInstanceTypes[k],
                     "Invalid instance type: '" + v + "'. Valid types are: ", "");
      assert "Invalid instance type: '" + v + "'. Valid types are: "
             + Join(ValidInstanceTypes, ", ") + "" == InstanceTypeMessage(v);
    }
  }

  /** Python's `$` also matches just before one newline that ends the string. */
  function DropFinalNewline(s: string): string {
    if |s| > 0 && s[|s| - 1] == '\n' then s[..|s| - 1] else s
  }

  /** `^\d+(MB|GB)$`: digits, then exactly "MB" or "GB". */
  predicate SharedBuffersPattern(s: string) {
    var b := DropFinalNewline(s);
    |b| > 2 && IsDigits(b[..|b| - 2]) && (b[|b| - 2] == 'M' || b[|b| - 2] == 'G') && b[|b| - 1] == 'B'
  }

  /** `^\d+\.\d+$`: digits, one dot, digits. */
  predicate PostgresVersionPattern(s: string) {
    var b := DropFinalNewline(s);
    exists i | 0 < i < |b| - 1 :: IsDigits(b[..i]) && b[i] == '.' && IsDigits(b[i + 1..])
  }

  /** The length of the run of digits that starts `s`: what a greedy `\d+` consumes. */
  function DigitRun(s: string): (n: nat)
    ensures n <= |s|
    ensures AllDigits(s[..n])
    ensures n < |s| ==> !IsDigit(s[n])
  {
    if |s| > 0 && IsDigit(s[0]) then
      var n := 1 + DigitRun(s[1..]);
      assert forall i :: 1 <= i < n ==> s[i] == s[1..][i - 1];
      n
    else 0
  }

  /** A run of digits ended by a non-digit (or by the end) is the greedy run. */
  lemma DigitRunIs(s: string, k: nat)
    requires k <= |s| && AllDigits(s[..k])
    requires k < |s| ==> !IsDigit(s[k])
    ensures DigitRun(s) == k
  {
    var n := DigitRun(s);
    assert forall i :: 0 <= i < k ==> IsDigit(s[i]) by {
      assert forall i :: 0 <= i < k ==> s[..k][i] == s[i];
    }
    assert forall i :: 0 <= i < n ==> IsDigit(s[i]) by {
      assert forall i :: 0 <= i < n ==> s[..n][i] == s[i];
    }
  }

  /** The left-to-right scan `re.match(r'^\d+(MB|GB)$', s)` performs. */
  predicate ScanSharedBuffers(s: string) {
    var d := DigitRun(s);
    && d > 0
    && (d + 2 == |s| || (d + 3 == |s| && s[d + 2] == '\n'))
    && (s[d] == 'M' || s[d] == 'G') && s[d + 1] == 'B'
  }

  /** The left-to-right scan `re.match(r'^\d+\.\d+$', s)` performs. */
  predicate ScanPostgresVersion(s: string) {
    var d := DigitRun(s);
    if d == 0 || d == |s| || s[d] != '.' then false
    else
      var rest := s[d + 1..];
      var e := DigitRun(rest);
      e > 0 && (rest[e..] == "" || rest[e..] == "\n")
  }

  lemma ScanSharedBuffersCorrect(s: string)
    ensures ScanSharedBuffers(s) <==> SharedBuffersPattern(s)
  {
    var b := DropFinalNewline(s);
    var d := DigitRun(s);
    if ScanSharedBuffers(s) {
      if d + 3 == |s| {
        assert b == s[..|s| - 1];
      }
      assert b[..d] == s[..d];
    }
    if SharedBuffersPattern(s) {
      var k := |b| - 2;
      assert b[..k] == s[..k];
      DigitRunIs(s, k);
    }
  }

  /** What the scan accepts has the shape of the pattern. */
  lemma ScanPostgresVersionSound(s: string)
    requires ScanPostgresVersion(s)
    ensures PostgresVersionPattern(s)
  {
    var b := DropFinalNewline(s);
    var d := DigitRun(s);
    var rest := s[d + 1..];
    var e := DigitRun(rest);
    assert rest[..e] == s[d + 1..d + 1 + e];
    if rest[e..] == "" {
      assert b == s;
    } else {
      assert b == s[..|s| - 1];
    }
    assert b[d + 1..] == rest[..e];
    assert b[..d] == s[..d];
    assert IsDigits(b[..d]) && b[d] == '.' && IsDigits(b[d + 1..]);
  }

  /** Whatever has the shape of the pattern, the scan accepts. */
  lemma ScanPostgresVersionComplete(s: string)
    requires PostgresVersionPattern(s)
    ensures ScanPostgresVersion(s)
  {
    var b := DropFinalNewline(s);
    var i :| 0 < i < |b| - 1 && IsDigits(b[..i]) && b[i] == '.' && IsDigits(b[i + 1..]);
    MajorRun(s, i);
    MinorRun(s, i);
  }

  /** The scan's first run of digits stops at the pattern's dot. */
  lemma MajorRun(s: string, i: nat)
    requires var b := DropFinalNewline(s);
             0 < i < |b| - 1 && IsDigits(b[..i]) && b[i] == '.'
    ensures DigitRun(s) == i && s[i] == '.'
  {
    var b := DropFinalNewline(s);
    assert b[..i] == s[..i];
    DigitRunIs(s, i);
  }

  /** After the dot, the scan's second run of digits reaches the end or a final newline. */
  lemma MinorRun(s: string, i: nat)
    requires var b := DropFinalNewline(s);
             0 < i < |b| - 1 && IsDigits(b[i + 1..])
    ensures var rest := s[i + 1..];
            var e := DigitRun(rest);
            e > 0 && (rest[e..] == "" || rest[e..] == "\n")
  {
    var b := DropFinalNewline(s);
    var rest := s[i + 1..];
    var k := |b| - i - 1;
    assert rest[..k] == b[i + 1..];
    assert k < |rest| ==> rest[k] == '\n';
    DigitRunIs(rest, k);
  }

  lemma ScanPostgresVersionCorrect(s: string)
    ensures ScanPostgresVersion(s) <==> PostgresVersionPattern(s)
  {
    if ScanPostgresVersion(s) {
      ScanPostgresVersionSound(s);
    }
    if PostgresVersionPattern(s) {
      ScanPostgresVersionComplete(s);
    }
  }

  /** `re.match(r'^\d+(MB|GB)$', s)` succeeds: the scan, stated as the pattern. */
  function MatchSharedBuffers(s: string): (matched: bool)
    ensures matched <==> SharedBuffersPattern(s)
  {
    ScanSharedBuffersCorrect(s);
    ScanSharedBuffers(s)
  }

  /** `re.match(r'^\d+\.\d+$', s)` succeeds: the scan, stated as the pattern. */
  function MatchPostgresVersion(s: string): (matched: bool)
    ensures matched <==> PostgresVersionPattern(s)
  {
    ScanPostgresVersionCorrect(s);
    ScanPostgresVersion(s)
  }

  /** `check_shared_buffers`: the value unchanged, or the fixed message. */
  function CheckSharedBuffers(v: string): (r: Result<string, string>)
    ensures r.Ok? <==> SharedBuffersPattern(v)
    ensures r.Ok? ==> r.value == v
    ensures r.Err? ==> r.error == SharedBuffersMessage
  {
    if !MatchSharedBuffers(v) then Err(SharedBuffersMessage) else Ok(v)
  }

  /** `check_postgres_version`: the value unchanged, or the fixed message. */
  function CheckPostgresVersion(v: string): (r: Result<string, string>)
    ensures r.Ok? <==> PostgresVersionPattern(v)
    ensures r.Ok? ==> r.value == v
    ensures r.Err? ==> r.error == PostgresVersionMessage
  {
    if !MatchPostgresVersion(v) then Err(PostgresVersionMessage) else Ok(v)
  }

  /** Whether one field of `s` satisfies its declared constraint. */
  predicate FieldAccepts(s: Setup, f: Field) {
    match f
    case PostgresVersion => PostgresVersionPattern(s.postgresVersion)
    case InstanceType => s.instanceType in ValidInstanceTypes
    case NumReplicas => true
    case MaxConnections => s.maxConnections >= MinConnections
    case SharedBuffers => SharedBuffersPattern(s.sharedBuffers)
  }

  /** A setup pydantic accepts: every field satisfies its constraint. */
  predicate IsValid(s: Setup) {
    forall f :: FieldAccepts(s, f)
  }

  /** `num_replicas` has no constraint, so a setup is valid when its four constrained fields are. */
  lemma IsValidFields(s: Setup)
    ensures IsValid(s) <==> FieldAccepts(s, PostgresVersion) && FieldAccepts(s, InstanceType)
                            && FieldAccepts(s, MaxConnections) && FieldAccepts(s, SharedBuffers)
  {
    if FieldAccepts(s, PostgresVersion) && FieldAccepts(s, InstanceType)
       && FieldAccepts(s, MaxConnections) && FieldAccepts(s, SharedBuffers) {
      forall f ensures FieldAccepts(s, f) {
        match f
        case PostgresVersion =>
        case InstanceType =>
        case NumReplicas =>
        case MaxConnections =>
        case SharedBuffers =>
      }
    }
  }

  /** The error a failing constrained field reports: its validator's message, or the bound it missed. */
  function ExpectedError(s: Setup, f: Field): FieldError
    requires f != NumReplicas
  {
    match f
    case PostgresVersion => Invalid(PostgresVersion, PostgresVersionMessage)
    case InstanceType => Invalid(InstanceType, InstanceTypeMessage(s.instanceType))
    case MaxConnections => BelowMinimum(MaxConnections, MinConnections)
    case SharedBuffers => Invalid(SharedBuffers, SharedBuffersMessage)
  }

  /** Every error names a constrained field and is the error that field reports. */
  predicate AsExpected(s: Setup, errors: seq<FieldError>) {
    forall k | 0 <= k < |errors| :: errors[k].field != NumReplicas && errors[k] == ExpectedError(s, errors[k].field)
  }

  lemma AsExpectedOfFour(s: Setup, a: seq<FieldError>, b: seq<FieldError>, c: seq<FieldError>, d: seq<FieldError>)
    requires AsExpected(s, a) && AsExpected(s, b) && AsExpected(s, c) && AsExpected(s, d)
    ensures AsExpected(s, a + b + c + d)
  {
    var x := a + b + c + d;
    forall k | 0 <= k < |x|
      ensures x[k].field != NumReplicas && x[k] == ExpectedError(s, x[k].field)
    {
      if k < |a| {
        assert x[k] == a[k];
      } else if k < |a| + |b| {
        assert x[k] == b[k - |a|];
      } else if k < |a| + |b| + |c| {
        assert x[k] == c[k - |a| - |b|];
      } else {
        assert x[k] == d[k - |a| - |b| - |c|];
      }
    }
  }

  function ValidatorError(f: Field, r: Result<string, string>): seq<FieldError> {
    match r
    case Ok(_) => []
    case Err(m) => [Invalid(f, m)]
  }

  /** The fields named by a list of errors, in order. */
  function Fields(errors: seq<FieldError>): seq<Field> {
    if errors == [] then [] else [errors[0].field] + Fields(errors[1..])
  }

  lemma {:induction false} FieldsAppend(a: seq<FieldError>, b: seq<FieldError>)
    ensures Fields(a + b) == Fields(a) + Fields(b)
  {
    if a != [] {
      calc {
        Fields(a + b);
        [(a + b)[0].field] + Fields((a + b)[1..]);
        { assert (a + b)[1..] == a[1..] + b; }
        [a[0].field] + Fields(a[1..] + b);
        { FieldsAppend(a[1..], b); }
        [a[0].field] + (Fields(a[1..]) + Fields(b));
      }
    } else {
      assert a + b == b;
    }
  }

  /** `[f]` when field `f` of `s` fails its constraint, `[]` when it passes. */
  function Failing(s: Setup, f: Field): seq<Field> {
    if FieldAccepts(s, f) then [] else [f]
  }

  /** A validator's outcome names its field when, and only when, it failed. */
  lemma ValidatorErrorFields(f: Field, r: Result<string, string>)
    ensures Fields(ValidatorError(f, r)) == (if r.Ok? then [] else [f])
    ensures ValidatorError(f, r) == [] <==> r.Ok?
  {
  }

  lemma FieldsOfFour(a: seq<FieldError>, b: seq<FieldError>, c: seq<FieldError>, d: seq<FieldError>)
    ensures Fields(a + b + c + d) == Fields(a) + Fields(b) + Fields(c) + Fields(d)
    ensures a + b + c + d == [] <==> a == [] && b == [] && c == [] && d == []
  {
    FieldsAppend(a, b);
    FieldsAppend(a + b, c);
    FieldsAppend(a + b + c, d);
    assert |a + b + c + d| == |a| + |b| + |c| + |d|;
  }

  /** The errors of the four checks' outcomes, in declaration order. */
  function ErrorsOf(version: Result<string, string>, instanceType: Result<string, string>,
                    connectionsOk: bool, buffers: Result<string, string>): seq<FieldError>
  {
    ValidatorError(PostgresVersion, version) + ValidatorError(InstanceType, instanceType)
    + (if connectionsOk then [] else [BelowMinimum(MaxConnections, MinConnections)])
    + ValidatorError(SharedBuffers, buffers)
  }

  /** The fields the four checks' errors name, whatever the outcomes are. */
  lemma ErrorsOfFields(version: Result<string, string>, instanceType: Result<string, string>,
                       connectionsOk: bool, buffers: Result<string, string>)
    ensures var errors := ErrorsOf(version, instanceType, connectionsOk, buffers);
            && Fields(errors) == (if version.Ok? then [] else [PostgresVersion])
                                 + (if instanceType.Ok? then [] else [InstanceType])
                                 + (if connectionsOk then [] else [MaxConnections])
                                 + (if buffers.Ok? then [] else [SharedBuffers])
            && (errors == [] <==> version.Ok? && instanceType.Ok? && connectionsOk && buffers.Ok?)
  {
    var m := if connectionsOk then [] else [BelowMinimum(MaxConnections, MinConnections)];
    ValidatorErrorFields(PostgresVersion, version);
    ValidatorErrorFields(InstanceType, instanceType);
    ValidatorErrorFields(SharedBuffers, buffers);
    assert Fields(m) == (if connectionsOk then [] else [MaxConnections]);
    FieldsOfFour(ValidatorError(PostgresVersion, version), ValidatorError(InstanceType, instanceType), m,
                 ValidatorError(SharedBuffers, buffers));
  }

  /** When each failed check carries the message its field reports, so do all four checks' errors. */
  lemma ErrorsOfExpected(s: Setup, version: Result<string, string>, instanceType: Result<string, string>,
                         connectionsOk: bool, buffers: Result<string, string>)
    requires version.Err? ==> Invalid(PostgresVersion, version.error) == ExpectedError(s, PostgresVersion)
    requires instanceType.Err? ==> Invalid(InstanceType, instanceType.error) == ExpectedError(s, InstanceType)
    requires buffers.Err? ==> Invalid(SharedBuffers, buffers.error) == ExpectedError(s, SharedBuffers)
    ensures AsExpected(s, ErrorsOf(version, instanceType, connectionsOk, buffers))
  {
    var connections := if connectionsOk then [] else [BelowMinimum(MaxConnections, MinConnections)];
    assert AsExpected(s, connections);
    AsExpectedOfFour(s, ValidatorError(PostgresVersion, version), ValidatorError(InstanceType, instanceType),
                     connections, ValidatorError(SharedBuffers, buffers));
  }

  /**
   * The errors of all failing fields: one per failing field, in declaration
   * order, each with its validator's message or the bound it missed; none
   * exactly when every constraint holds.
   */
  function FieldErrors(s: Setup): (errors: seq<FieldError>)
    ensures Fields(errors) == Failing(s, PostgresVersion) + Failing(s, InstanceType)
                              + Failing(s, MaxConnections) + Failing(s, SharedBuffers)
    ensures errors == [] <==> IsValid(s)
    ensures forall k | 0 <= k < |errors| ::
              errors[k].field != NumReplicas && errors[k] == ExpectedError(s, errors[k].field)
  {
    var version := CheckPostgresVersion(s.postgresVersion);
    var instanceType := CheckInstanceType(s.instanceType);
    var buffers := CheckSharedBuffers(s.sharedBuffers);
    var connectionsOk := s.maxConnections >= MinConnections;
    ErrorsOfFields(version, instanceType, connectionsOk, buffers);
    ErrorsOfExpected(s, version, instanceType, connectionsOk, buffers);
    IsValidFields(s);
    ErrorsOf(version, instanceType, connectionsOk, buffers)
  }

  /**
   * Building a `PostgreSQLSetup`: the setup unchanged when every constraint
   * holds, otherwise one error for each failing field, in declaration order,
   * each carrying its validator's message (`num_replicas` has no constraint
   * and is never reported).
   */
  function Validate(s: Setup): (r: Result<Setup, seq<FieldError>>)
    ensures r.Ok? <==> IsValid(s)
    ensures r.Ok? ==> r.value == s
    ensures r.Err? ==> Fields(r.error) == Failing(s, PostgresVersion) + Failing(s, InstanceType)
                                         + Failing(s, MaxConnections) + Failing(s, SharedBuffers)
    ensures r.Err? ==> forall k | 0 <= k < |r.error| ::
                         r.error[k].field != NumReplicas && r.error[k] == ExpectedError(s, r.error[k].field)
  {
    var errors := FieldErrors(s);
    if errors == [] then Ok(s) else Err(errors)
  }

  /** The two formats the shared_buffers message advertises are accepted; malformed ones are not. */
  lemma SharedBuffersExamples()
    ensures CheckSharedBuffers("256MB") == Ok("256MB")
    ensures CheckSharedBuffers("1GB") == Ok("1GB")
    ensures CheckSharedBuffers("256MB\n") == Ok("256MB\n")
    ensures CheckSharedBuffers("1.5GB").Err?
    ensures CheckSharedBuffers("500").Err?
    ensures CheckSharedBuffers("10TB").Err?
    ensures CheckSharedBuffers("MB").Err?
  {
  }

  /** Only major.minor is accepted. */
  lemma PostgresVersionExamples()
    ensures CheckPostgresVersion("14.10") == Ok("14.10")
    ensures CheckPostgresVersion("14").Err?
    ensures CheckPostgresVersion("14.").Err?
  {
    DigitRunIs("14.10", 2);
    DigitRunIs("10", 2);
    DigitRunIs("14", 2);
    DigitRunIs("14.", 2);
    ScanPostgresVersionCorrect("14.10");
    ScanPostgresVersionCorrect("14");
    ScanPostgresVersionCorrect("14.");
  }

  /** The version message advertises a three-part version as its example. */
  lemma PostgresVersionMessageExample()
    ensures Contains(PostgresVersionMessage, "14.10.20")
  {
    var before, after := "PostgreSQL version must be in the format X.YY.ZZ (e.g., ", ").";
    ContainsMiddle(before, "14.10.20", after);
    assert before + "14.10.20" + after == PostgresVersionMessage;
  }

  /** The three-part version the message advertises is refused by the check. */
  lemma PostgresVersionMessageExampleRefused()
    ensures CheckPostgresVersion("14.10.20").Err?
  {
    DigitRunIs("14.10.20", 2);
    DigitRunIs("10.20", 2);
    ScanPostgresVersionCorrect("14.10.20");
  }
}
